=== FILE: README.md ===
# Redirect-following core of `ClientRedirectHandler`, in Dafny

This project models how `ClientRedirectHandler` (a Vert.x/RxJava HTTP helper)
"unshortens" a URL. It issues one request per hop and follows 301/302/303/307
responses by hand until a non-redirect response arrives or a safety check
fails. Along the way it keeps `urlsList`, an append-only log of every URL
visited with the status code each one answered.

The model is functional. The network is a scripted oracle, a map from the
request a hop sends to the response it gets. `java.net.URI` is abstract: a
`UriLibrary` value carries its parse, resolve and `toString` operations as
function values, and a `Uri` record holds the getters the handler reads. A
`URI` object made by `new URI(url)` gives back `url` itself from
`toString()`, and `resolve` returns its argument object unchanged when that
argument is absolute or the base is opaque. So a URL is recorded exactly as
written unless `resolve` built a new URI for it; only such a built URI is
rendered by the library.

Modules (one concept each):

- `Optional`: `Option` (Java `null`) and `Result` (a value or the
  `Observable.error` that ended the run).
- `JavaText`: `String.trim` / `isEmpty` as the blankness test, and
  `equalsIgnoreCase`.
- `Uris`: the URI record and the abstract URI library.
- `Transport`: `isSSL`, `getPort` and `getRequestURI`, plus `SplitTarget`, an
  inverse of the request-target builder used to state that nothing is lost or
  re-encoded.
- `Hop`: the `urlsList` entry, the error kinds, redirect classification,
  `isRedirectLoop`, and `Step`, the decision taken inside the `flatMap`
  lambda.
- `Resolver`: `buildURI`, one hop (`VisitHop`), the recursion (`Unshorten`,
  whose termination measure is the remaining hop budget
  `maxRedirects + 1 - |chain|`), `toObservable` (`Resolve`) and the
  `toObservableWholeBody` fold.
- `Scenarios`: concrete chains worked through the model. These are the
  worked t.co → bit.ly → example.com example, a cycle A → B → C → B, a chain
  cut by the hop bound, and relative vs. absolute self-redirects.

Points where the handler's behaviour is easy to misread:

- Loop detection compares the raw, unresolved `location` header with the
  recorded URLs: the URL as written, or the library's rendering when
  `resolve` built a new URI. A relative redirect back to the same page is
  therefore never reported as a loop; only the hop bound stops it
  (`Scenarios.RelativeSelfRedirectRunsToTheBound`).
- A scheme other than `http`/`https` is not an error. `getPort` just keeps the
  non-positive port, and TLS stays off.
- The hop bound compares the size of `urlsList` after the current hop's entry
  was appended (`size > maxRedirectsCount`). It runs after the location and
  loop checks, and it applies to non-redirect responses too.
- A relative URL with an empty log fails as "invalid url", because
  `getJsonObject(-1)` throws inside the `try`.

## Model

| member | source | states |
|---|---|---|
| JavaText.Trim | src/main/java/org/ClientRedirectHandler.java:76 | `trim()` yields the empty string exactly when every char is at or below U+0020; otherwise the result starts and ends with a char above U+0020 |
| JavaText.TrimIsSlice | src/main/java/org/ClientRedirectHandler.java:76 | `trim()` cuts one contiguous slice out of the string: everything before it and everything after it is at or below U+0020 |
| JavaText.EqualsIgnoreCaseIffLowerEqual | src/main/java/org/ClientRedirectHandler.java:110 | `equalsIgnoreCase`'s per-char test agrees with comparing the lower-cased strings, and a null argument never matches |
| Transport.IsSsl | src/main/java/org/ClientRedirectHandler.java:109-114 | TLS is enabled iff the scheme is present and equals `https` ignoring case |
| Transport.Port | src/main/java/org/ClientRedirectHandler.java:143-154 | a positive port is kept; a non-positive one becomes 80 for `http` and 443 for `https` (any case), and stays unchanged for any other or missing scheme |
| Transport.Kept | src/main/java/org/ClientRedirectHandler.java:118-124 | a query or fragment is appended iff it is non-null and has a char above U+0020, and then it is the untrimmed original |
| Transport.RequestTarget | src/main/java/org/ClientRedirectHandler.java:116-127 | the raw path, then `?` and the query when kept, then `#` and the fragment when kept; a null path with something appended gives the literal `null` prefix (`"null?q"`, `"null#f"`), and with nothing appended the target is null |
| Transport.RequestFor | src/main/java/org/ClientRedirectHandler.java:49-56 | one hop dials TLS (with trust-all) iff `isSSL`, the URI's host and the `getRequestURI` target; the port is the URI's own when positive, 443 with TLS and 80 for `http` when not, and the URI's own non-positive port for any other scheme, as `getPort` gives |
| Transport.RequestTargetShape | src/main/java/org/ClientRedirectHandler.java:116-127 | the target starts with the raw path; it is the bare path when nothing is appended, and null only when the path is null and nothing is appended |
| Transport.RequestTargetRoundTrip | src/main/java/org/ClientRedirectHandler.java:116-127 | for URI-shaped parts, splitting the target at the first `#` and then the first `?` recovers the raw path and exactly the kept query and fragment, so nothing is trimmed or re-encoded |
| Hop.IsRedirect | src/main/java/org/ClientRedirectHandler.java:68-73 | a status is a redirect iff it is one of 301, 302, 303, 307 |
| Hop.MissingLocation | src/main/java/org/ClientRedirectHandler.java:76 | the location is unusable iff it is null or every char of it is at or below U+0020 |
| Hop.IsRedirectLoop | src/main/java/org/ClientRedirectHandler.java:156-165 | true iff some recorded entry, anywhere in the log, has a url exactly equal to the location |
| Hop.Step | src/main/java/org/ClientRedirectHandler.java:59-98 | the status is written into the current (last) entry and nothing else changes; a redirect is followed only within the bound, and a body is delivered only for a non-redirect within the bound |
| Hop.StepDecision | src/main/java/org/ClientRedirectHandler.java:62-97 | one rule per outcome (`EmptyLocationRule`, `LoopRule`, `BoundRule`, `FollowRule`, `TerminalRule`), each an iff: codes 301/302/303/307 are redirects and all others terminal; the checks run in a fixed order (empty location, loop over the whole log, size above the bound) and the first failing one wins; the raw location is followed or the response body delivered only when all pass |
| Resolver.BuildUri | src/main/java/org/ClientRedirectHandler.java:129-141 | it fails (always as invalid) exactly when the URL does not parse, or it has no usable host and the log is empty or its last URL does not parse; a URI with a non-blank host passes through unchanged and keeps the URL as written for its `toString()`; otherwise it is resolved against the parsed last recorded URL: an absolute URI, or any URI against an opaque base, comes back unchanged with the URL as written, and any other is the library's `resolve`, printed by the library |
| Resolver.RecordedAsWritten | src/main/java/org/ClientRedirectHandler.java:129-141 | the text a hop records is the URL as written, unless the URL has no usable host and `resolve` built a new URI for it, whose library rendering is then the text |
| Resolver.VisitHop | src/main/java/org/ClientRedirectHandler.java:35-98 | a URL that does not build ends the resolution as "invalid url" with the log untouched; one that builds appends exactly one entry; a hop that continues has appended one redirect entry within the bound |
| Resolver.ChainGrowthAfterFollow | src/main/java/org/ClientRedirectHandler.java:90-93 | the log invariants of the rest of a resolution carry over to the whole resolution across a followed redirect |
| Resolver.Unshorten | src/main/java/org/ClientRedirectHandler.java:35-107 | the log is append-only, never exceeds `maxRedirects + 1` entries (or one past its start), and every new entry but the last is a followed redirect; only a transport failure leaves the last entry without a status; a success ends within the bound on a non-redirect status |
| Resolver.HopRecordsResolvedUrl | src/main/java/org/ClientRedirectHandler.java:37-46 | a hop whose URL builds appends exactly one entry holding the built URI's `toString()` (the URL exactly as written when it has a usable host) and, once answered, its status; a URL that does not build fails as "invalid url" and appends nothing |
| Resolver.HopChecksInOrder | src/main/java/org/ClientRedirectHandler.java:75-88 | a redirect without a usable location, a redirect to any URL of the log, or a log over the bound each end the whole resolution with their own error, with the failing hop's status recorded |
| Resolver.HopFollowsOrDelivers | src/main/java/org/ClientRedirectHandler.java:90-97 | when all checks pass, a redirect continues at the raw location with the status recorded, and a non-redirect ends with that response's body |
| Resolver.TerminalAtStart | src/main/java/org/ClientRedirectHandler.java:35-98 | with a bound of at least 1, a start URL answered by a non-redirect gives a one-entry log holding that URL as written with that status, and that response's body (with a bound of 0 the size check at line 86 fails even this first hop) |
| Resolver.FirstEntryIsAbsolute | src/main/java/org/ClientRedirectHandler.java:133-137 | the first entry, if any, is the start URL exactly as written, and that URL parsed with a non-blank host; the first URL is never resolved relatively |
| Resolver.RedirectToRecordedUrlIsLoop | src/main/java/org/ClientRedirectHandler.java:44-83 | for every URI library: a URL with a usable host is recorded as written, so a usable redirect whose location is that URL, or any URL already in the log, fails as "redirect loop detected" with the hop's status recorded |
| Resolver.Resolve | src/main/java/org/ClientRedirectHandler.java:167-169 | a run from an empty log ends with at most `maxRedirects + 1` entries (one when the bound is negative), and a success with between 1 and `maxRedirects` entries |
| Resolver.Reduce | src/main/java/org/ClientRedirectHandler.java:172 | the fold only appends: the accumulator is a prefix of the result, which grows by the total size of the chunks |
| Resolver.ReduceIsFlatten | src/main/java/org/ClientRedirectHandler.java:171-173 | folding the chunks into a buffer from the left keeps every chunk, in arrival order, after what was already accumulated |
| Resolver.ResolveWholeBody | src/main/java/org/ClientRedirectHandler.java:171-173 | the whole-body result fails exactly when the resolution fails, with the same error, and otherwise is the terminal body's chunks laid end to end |
| Scenarios.WebRequests | src/main/java/org/ClientRedirectHandler.java:143-154 | an `http` URI without a port dials 80 in plain text; an `https` one dials 443 with TLS |
| Scenarios.WorkedExample | src/main/java/org/ClientRedirectHandler.java:35-107 | t.co (301) to bit.ly (302) to example.com (200, "ok") yields the three URLs in visiting order with their statuses, and the body "ok" |
| Scenarios.CycleIsDetected | src/main/java/org/ClientRedirectHandler.java:156-165 | A → B → C → B fails with "redirect loop detected" at C, though B is not the URL just left |
| Scenarios.LongChainIsCut | src/main/java/org/ClientRedirectHandler.java:85-88 | with a bound of 2, A → B → C → D fails with "max redirects count reached" after three entries, without any loop |
| Scenarios.RelativeSelfRedirectRunsToTheBound | src/main/java/org/ClientRedirectHandler.java:80-88 | a page redirecting to itself by a relative location is never reported as a loop; it is followed until the log passes the bound |
| Scenarios.AbsoluteSelfRedirectIsALoop | src/main/java/org/ClientRedirectHandler.java:80-83 | the same page redirecting to itself by its absolute URL fails as a loop on the first hop |

## Left out

- Vert.x `HttpClient`/`HttpClientOptions`, `trustAll`, the `User-Agent` header and the Rx `Observable`/`ReplaySubject` plumbing (lines 49-58, 100-105): asynchronous I/O and library glue. A hop is one `Request` (TLS flag, port, host, target) looked up in a deterministic oracle. TLS and trust-all are switched on together, only when `isSSL` holds (lines 50-53), so both follow the request's `ssl` flag. The `User-Agent` header is the one setting that is the same on every hop, so it is not part of the request.
- `java.net.URI` parsing, `resolve` and `toString` (lines 130, 136-137, 45): foreign library code, so these are the function values of `UriLibrary`. `toString` is a library call only for a URI that `resolve` built. A parsed URI keeps its input text, and `resolve` hands back an absolute reference, or any reference against an opaque base, unchanged, as its Javadoc states. `Uris.IsOpaque` reads opacity off the getters: a scheme with a null raw path. `Uris.Uri` holds only the getters the handler reads. The scenarios state the few facts they need about the library as preconditions.
- Transport failures: any request the oracle does not answer fails as `TransportFailure`, after the hop's entry has been appended. Errors in the middle of a body stream are not modelled.
- Streaming: a terminal body is a sequence of chunks, delivered whole. Laziness, cancellation, back-pressure and releasing connections are not modelled (concurrency and resource concerns).
- `fixStringEncoding` (lines 179-194): dead code that depends on the JDK's UTF-8 decoder and logging.
- `TestClientRedirectHandler.java`: it only bootstraps a verticle and makes a live network call; it has no logic of its own.
- Logging throughout.
- `JavaText.EqualsIgnoreCaseIffLowerEqual`: case folding covers ASCII letters only. Java also maps some non-ASCII chars (U+017F upper-cases to `S`). `java.net.URI` admits only ASCII letters in a scheme, so this never matters for `isSSL`/`getPort`.
- Java strings are UTF-16 code units, while Dafny `char` is a Unicode scalar value. Unpaired surrogates are not modelled. `trim` only looks at chars at or below U+0020, which both views share.
- `urlsList` belongs to the handler instance and is never reset. `Resolver.Resolve` models the first `toObservable()` call; a repeated call on the same handler continues the old log, which is `Resolver.Unshorten` started from that log.
- Integer widths: status codes, ports and `maxRedirectsCount` are Java `int`s. They are used only in comparisons that cannot overflow, so they are unbounded `int` here.

=== FILE: hop.dfy ===
/** One hop of the redirect chain: the record kept for every visited URL, the
    errors a resolution can end with, and the decision taken when a hop's
    response arrives. */
module Hop {
  import opened Optional
  import opened JavaText

  newtype byte = b: int | 0 <= b < 256

  /** One piece of a streamed response body. */
  type Chunk = seq<byte>

  /** One element of the handler's `urlsList`: the URL visited and, once its
      response has been seen, the status code. */
  datatype Entry = Entry(url: string, statusCode: Option<int>)

  /** The reasons a resolution fails. */
  datatype Error =
    | InvalidUrl(url: string)  // "invalid url: <url>"
    | EmptyLocation            // "location is empty"
    | RedirectLoop             // "redirect loop detected"
    | MaxRedirects             // "max redirects count reached"
    | TransportFailure         // the HTTP client's own error, passed through

  /** What the transport reports for one request. */
  datatype Response = Response(status: int, location: Option<string>, body: seq<Chunk>)

  /** What a hop does next. */
  datatype Decision = Fail(error: Error) | Follow(location: string) | Terminal(body: seq<Chunk>)

  /** The chain with the current hop's status recorded, and the decision. */
  datatype StepResult = StepResult(chain: seq<Entry>, decision: Decision)

  const MovedPermanently := 301
  const Found := 302
  const SeeOther := 303
  const TemporaryRedirect := 307

  /** The status codes treated as redirects; every other code ends the chain. */
  const RedirectCodes: set<int> := {301, 302, 303, 307}

  /** 301, 302, 303 and 307 are redirects; every other code is terminal. */
  function IsRedirect(status: int): (r: bool)
    ensures r <==> status in RedirectCodes
  {
    status == MovedPermanently || status == Found || status == SeeOther || status == TemporaryRedirect
  }

  /** A `location` header that is null or blank after trimming. */
  function MissingLocation(location: Option<string>): (r: bool)
    ensures r <==> location.None? || forall k :: 0 <= k < |location.value| ==> location.value[k] <= ' '
  {
    location.None? || IsBlank(location.value)
  }

  /** Scans every recorded entry, from the first, for one whose url equals the
      location exactly. */
  function IsRedirectLoop(location: string, chain: seq<Entry>): (r: bool)
    ensures r <==> exists i :: 0 <= i < |chain| && chain[i].url == location
  {
    if |chain| == 0 then false
    else chain[0].url == location || IsRedirectLoop(location, chain[1..])
  }

  /** The decision on receiving a response for the last entry of `chain`: the
      status is recorded in that entry before anything else, and the decision
      follows a location only when the chain is within the bound, and delivers
      a body only for a non-redirect within the bound. */
  function Step(chain: seq<Entry>, response: Response, maxRedirects: int): (r: StepResult)
    requires |chain| > 0
    ensures |r.chain| == |chain|
    ensures forall i :: 0 <= i < |chain| - 1 ==> r.chain[i] == chain[i]
    ensures r.chain[|chain| - 1] == Entry(chain[|chain| - 1].url, Some(response.status))
    ensures r.decision.Follow? ==> response.status in RedirectCodes && |chain| <= maxRedirects
    ensures r.decision.Terminal? ==> response.status !in RedirectCodes && |chain| <= maxRedirects
    ensures r.decision.Fail? ==> r.decision.error in {EmptyLocation, RedirectLoop, MaxRedirects}
  {
    var current := chain[|chain| - 1];
    var recorded := chain[..|chain| - 1] + [current.(statusCode := Some(response.status))];
    var location := response.location;
    var redirect := IsRedirect(response.status);
    var decision :=
      if redirect && MissingLocation(location) then Fail(EmptyLocation)
      else if redirect && IsRedirectLoop(location.value, recorded) then Fail(RedirectLoop)
      else if |recorded| > maxRedirects then Fail(MaxRedirects)
      else if redirect then Follow(location.value)
      else Terminal(response.body);
    StepResult(recorded, decision)
  }

  /** A redirect fails as "location is empty" exactly when its location is
      null or has no char above U+0020. */
  predicate EmptyLocationRule(chain: seq<Entry>, response: Response, maxRedirects: int)
    requires |chain| > 0
  {
    Step(chain, response, maxRedirects).decision == Fail(EmptyLocation) <==>
      response.status in RedirectCodes
      && (response.location.None? || forall k :: 0 <= k < |response.location.value| ==> response.location.value[k] <= ' ')
  }

  /** A redirect with a usable location fails as a loop exactly when that
      location is the url of some entry, anywhere in the chain. */
  predicate LoopRule(chain: seq<Entry>, response: Response, maxRedirects: int)
    requires |chain| > 0
  {
    Step(chain, response, maxRedirects).decision == Fail(RedirectLoop) <==>
      response.status in RedirectCodes && !MissingLocation(response.location)
      && exists i :: 0 <= i < |chain| && chain[i].url == response.location.value
  }

  /** A chain past the bound fails as "max redirects count reached" exactly
      when neither location check fired first, for any status. */
  predicate BoundRule(chain: seq<Entry>, response: Response, maxRedirects: int)
    requires |chain| > 0
  {
    Step(chain, response, maxRedirects).decision == Fail(MaxRedirects) <==>
      |chain| > maxRedirects
      && !(response.status in RedirectCodes && MissingLocation(response.location))
      && !(response.status in RedirectCodes && exists i :: 0 <= i < |chain| && chain[i].url == response.location.value)
  }

  /** A redirect is followed, to its raw location, exactly when every check
      passes. */
  predicate FollowRule(chain: seq<Entry>, response: Response, maxRedirects: int)
    requires |chain| > 0
  {
    var d := Step(chain, response, maxRedirects).decision;
    && (d.Follow? <==>
         response.status in RedirectCodes && !MissingLocation(response.location)
         && (forall i :: 0 <= i < |chain| ==> chain[i].url != response.location.value)
         && |chain| <= maxRedirects)
    && (d.Follow? ==> d.location == response.location.value)
  }

  /** A non-redirect delivers its body exactly when the chain is within the
      bound. */
  predicate TerminalRule(chain: seq<Entry>, response: Response, maxRedirects: int)
    requires |chain| > 0
  {
    var d := Step(chain, response, maxRedirects).decision;
    && (d.Terminal? <==> response.status !in RedirectCodes && |chain| <= maxRedirects)
    && (d.Terminal? ==> d.body == response.body)
  }

  /** The checks run in a fixed order and the first failing one wins: a
      redirect without a usable location (null, or nothing but chars at or
      below U+0020), then a redirect to a URL already anywhere in the chain,
      then a chain longer than `maxRedirects` (for every response, redirect or
      not); only then is the location followed or the body delivered. */
  lemma StepDecision(chain: seq<Entry>, response: Response, maxRedirects: int)
    requires |chain| > 0
    ensures EmptyLocationRule(chain, response, maxRedirects)
    ensures LoopRule(chain, response, maxRedirects)
    ensures BoundRule(chain, response, maxRedirects)
    ensures FollowRule(chain, response, maxRedirects)
    ensures TerminalRule(chain, response, maxRedirects)
  {
    StepChecks(chain, response, maxRedirects);
    StepBound(chain, response, maxRedirects);
    StepOutcomes(chain, response, maxRedirects);
  }

  lemma StepChecks(chain: seq<Entry>, response: Response, maxRedirects: int)
    requires |chain| > 0
    ensures EmptyLocationRule(chain, response, maxRedirects)
    ensures LoopRule(chain, response, maxRedirects)
  {
    StepKeepsUrls(chain, response, maxRedirects);
  }

  lemma StepBound(chain: seq<Entry>, response: Response, maxRedirects: int)
    requires |chain| > 0
    ensures BoundRule(chain, response, maxRedirects)
  {
    StepKeepsUrls(chain, response, maxRedirects);
  }

  lemma StepOutcomes(chain: seq<Entry>, response: Response, maxRedirects: int)
    requires |chain| > 0
    ensures FollowRule(chain, response, maxRedirects)
    ensures TerminalRule(chain, response, maxRedirects)
  {
    StepKeepsUrls(chain, response, maxRedirects);
  }

  /** Recording the status leaves every URL of the chain as it was. */
  lemma StepKeepsUrls(chain: seq<Entry>, response: Response, maxRedirects: int)
    requires |chain| > 0
    ensures forall i :: 0 <= i < |chain| ==> Step(chain, response, maxRedirects).chain[i].url == chain[i].url
  {
    var r := Step(chain, response, maxRedirects);
    forall i | 0 <= i < |chain|
      ensures r.chain[i].url == chain[i].url
    {
      if i < |chain| - 1 {
        assert r.chain[i] == chain[i];
      } else {
        assert r.chain[|chain| - 1].url == chain[|chain| - 1].url;
      }
    }
  }
}

=== FILE: optional.dfy ===
/** Null-able values and exception-or-value results, the two shapes the
    redirect handler's Java code expresses with `null` and with
    `Observable.error`. */
module Optional {

  /** A value that Java represents by a possibly-null reference. */
  datatype Option<+T> = None | Some(value: T)

  /** Either a value or the error that ended the computation. */
  datatype Result<+T, +E> = Success(value: T) | Failure(error: E)
}

=== FILE: resolver.dfy ===
/** The redirect-chain driver: resolve the next URL, record it, issue the
    request, decide, and either recurse into the next hop or deliver the body.
    The network is a scripted oracle from request to response. */
module Resolver {
  import opened Optional
  import opened Uris
  import opened Transport
  import opened Hop

  /** The responses the network would give; a request with no scripted
      response fails in the transport. */
  type Oracle = map<Request, Response>

  /** The chain as it stands when a resolution ends, and its outcome. */
  datatype Resolution = Resolution(chain: seq<Entry>, outcome: Result<seq<Chunk>, Error>)

  /** A `java.net.URI` object as the handler holds it: its parts, and the
      text `toString()` returns for it. */
  datatype BuiltUri = BuiltUri(uri: Uri, text: string)

  /** Turns a raw URL into the URI of the next hop. A URI that carries a
      non-blank host is used as it is; otherwise it is resolved against the
      last recorded URL. A URI that is used as it is, or that `resolve` hands
      back unchanged, keeps the URL as written for its text; a URI that
      `resolve` builds is printed by the library. Every failure along the way,
      including a relative URL with no previous hop to resolve against, is an
      invalid URL. */
  function BuildUri(lib: UriLibrary, url: string, chain: seq<Entry>): (r: Result<BuiltUri, Error>)
    ensures r.Failure? ==> r.error == InvalidUrl(url)
    ensures r.Failure? <==>
      || lib.parse(url).None?
      || (!HasHost(lib.parse(url).value) && (|chain| == 0 || lib.parse(chain[|chain| - 1].url).None?))
    ensures lib.parse(url).Some? && HasHost(lib.parse(url).value) ==> r == Success(BuiltUri(lib.parse(url).value, url))
    ensures lib.parse(url).Some? && !HasHost(lib.parse(url).value) && |chain| > 0 && lib.parse(chain[|chain| - 1].url).Some? ==>
      var previous := lib.parse(chain[|chain| - 1].url).value;
      var resolved := lib.resolve(previous, lib.parse(url).value);
      && (ResolvesToItself(previous, lib.parse(url).value) ==> r == Success(BuiltUri(lib.parse(url).value, url)))
      && (!ResolvesToItself(previous, lib.parse(url).value) ==> r == Success(BuiltUri(resolved, lib.format(resolved))))
  {
    match lib.parse(url)
    case None => Failure(InvalidUrl(url))
    case Some(uri) =>
      if HasHost(uri) then Success(BuiltUri(uri, url))
      else if |chain| == 0 then Failure(InvalidUrl(url))
      else
        match lib.parse(chain[|chain| - 1].url)
        case None => Failure(InvalidUrl(url))
        case Some(previous) =>
          if ResolvesToItself(previous, uri) then Success(BuiltUri(uri, url))
          else
            var resolved := lib.resolve(previous, uri);
            Success(BuiltUri(resolved, lib.format(resolved)))
  }

  /** The text a hop records is the URL as written unless `resolve` built a
      new URI for it: the other branch of `BuildUri`, stated on its own. */
  lemma RecordedAsWritten(lib: UriLibrary, url: string, chain: seq<Entry>)
    requires BuildUri(lib, url, chain).Success?
    ensures var built := BuildUri(lib, url, chain).value;
      built.text == url || (
        && !HasHost(lib.parse(url).value)
        && !ResolvesToItself(lib.parse(chain[|chain| - 1].url).value, lib.parse(url).value)
        && built.text == lib.format(built.uri))
  {
  }

  /** Status recorded and a redirect. */
  predicate Redirected(e: Entry) {
    e.statusCode.Some? && e.statusCode.value in RedirectCodes
  }

  /** `longer` starts with every entry of `shorter`, unchanged. */
  predicate Extends(longer: seq<Entry>, shorter: seq<Entry>) {
    |shorter| <= |longer| && forall i :: 0 <= i < |shorter| ==> longer[i] == shorter[i]
  }

  /** How a resolution that started from the log `before` may have left it:
      - append-only: what was recorded before is never changed;
      - the hop bound: at most one entry past `before`, or at most
        `maxRedirects + 1` entries;
      - every new entry but the last was a redirect that was followed;
      - only a transport failure leaves the last new entry without a status;
      - an outcome other than "invalid url" always has a new entry;
      - a URL that cannot be built appends nothing, so every new entry then
        was a followed redirect;
      - a success stays within `maxRedirects` entries and ends on a recorded
        non-redirect status. */
  predicate ChainGrowth(before: seq<Entry>, r: Resolution, maxRedirects: int) {
    && Extends(r.chain, before)
    && (|r.chain| <= |before| + 1 || |r.chain| <= maxRedirects + 1)
    && (forall i :: |before| <= i < |r.chain| - 1 ==> Redirected(r.chain[i]))
    && (|r.chain| > |before| ==> (r.chain[|r.chain| - 1].statusCode.None? <==> r.outcome == Failure(TransportFailure)))
    && (!(r.outcome.Failure? && r.outcome.error.InvalidUrl?) ==> |r.chain| > |before|)
    && (r.outcome.Failure? && r.outcome.error.InvalidUrl? ==>
          forall i :: |before| <= i < |r.chain| ==> Redirected(r.chain[i]))
    && (r.outcome.Success? ==>
          |before| < |r.chain| <= maxRedirects
          && r.chain[|r.chain| - 1].statusCode.Some?
          && r.chain[|r.chain| - 1].statusCode.value !in RedirectCodes)
  }

  /** How one hop ends: the resolution is over, or the chain continues at a
      location. */
  datatype HopOutcome = Done(resolution: Resolution) | Next(location: string, chain: seq<Entry>)

  /** A followed hop appends exactly one entry, a redirect, within the bound. */
  predicate Followed(before: seq<Entry>, next: seq<Entry>, maxRedirects: int) {
    |next| == |before| + 1 <= maxRedirects && Extends(next, before) && Redirected(next[|before|])
  }

  /** One hop: build the URI, record it, issue its request and decide. A hop
      that ends the resolution appends at most one entry, and none when the
      URI cannot be built; a hop that continues has appended one redirect. */
  function VisitHop(lib: UriLibrary, oracle: Oracle, maxRedirects: int, url: string, chain: seq<Entry>): (h: HopOutcome)
    ensures h.Next? ==> Followed(chain, h.chain, maxRedirects)
    ensures h.Done? ==> ChainGrowth(chain, h.resolution, maxRedirects) && |h.resolution.chain| <= |chain| + 1
    ensures BuildUri(lib, url, chain).Failure? ==> h == Done(Resolution(chain, Failure(InvalidUrl(url))))
    ensures BuildUri(lib, url, chain).Success? ==>
      |if h.Done? then h.resolution.chain else h.chain| == |chain| + 1
  {
    match BuildUri(lib, url, chain)
    case Failure(e) => Done(Resolution(chain, Failure(e)))
    case Success(built) =>
      var current := chain + [Entry(built.text, None)];
      var request := RequestFor(built.uri);
      if request !in oracle then Done(Resolution(current, Failure(TransportFailure)))
      else
        var step := Step(current, oracle[request], maxRedirects);
        assert Extends(step.chain, chain) by {
          forall i | 0 <= i < |chain|
            ensures step.chain[i] == chain[i]
          {
            assert step.chain[i] == current[i];
          }
        }
        match step.decision
        case Fail(e) => Done(Resolution(step.chain, Failure(e)))
        case Terminal(body) => Done(Resolution(step.chain, Success(body)))
        case Follow(location) => Next(location, step.chain)
  }

  /** What holds of the rest of a resolution after a followed hop holds of the
      whole of it. */
  lemma {:induction false} ChainGrowthAfterFollow(before: seq<Entry>, next: seq<Entry>, r: Resolution, maxRedirects: int)
    requires Followed(before, next, maxRedirects)
    requires ChainGrowth(next, r, maxRedirects)
    ensures ChainGrowth(before, r, maxRedirects)
  {
    assert r.chain[|before|] == next[|before|];
    assert Extends(r.chain, before) by {
      forall i | 0 <= i < |before|
        ensures r.chain[i] == before[i]
      {
        assert r.chain[i] == next[i];
      }
    }
  }

  /** One hop and everything after it. `chain` is the log before this hop; the
      hop budget `maxRedirects + 1 - |chain|` shrinks with every hop followed,
      and the log only ever grows by appending (see `ChainGrowth`). */
  function Unshorten(lib: UriLibrary, oracle: Oracle, maxRedirects: int, url: string, chain: seq<Entry>): (r: Resolution)
    decreases maxRedirects + 1 - |chain|
    ensures ChainGrowth(chain, r, maxRedirects)
  {
    match VisitHop(lib, oracle, maxRedirects, url, chain)
    case Done(resolution) => resolution
    case Next(location, next) =>
      var r := Unshorten(lib, oracle, maxRedirects, location, next);
      ChainGrowthAfterFollow(chain, next, r, maxRedirects);
      r
  }

  /** A hop whose URL can be built appends exactly one entry, carrying the
      URI's `toString()` text (the URL as written when it has a usable host)
      and, once the response is in, its status; a hop whose URL cannot be
      built ends with "invalid url" and appends nothing. */
  lemma HopRecordsResolvedUrl(lib: UriLibrary, oracle: Oracle, maxRedirects: int, url: string, chain: seq<Entry>)
    ensures BuildUri(lib, url, chain).Failure? ==>
      VisitHop(lib, oracle, maxRedirects, url, chain) == Done(Resolution(chain, Failure(InvalidUrl(url))))
    ensures BuildUri(lib, url, chain).Success? ==>
      var built := BuildUri(lib, url, chain).value;
      var h := VisitHop(lib, oracle, maxRedirects, url, chain);
      var log := if h.Done? then h.resolution.chain else h.chain;
      && |log| == |chain| + 1
      && log[|chain|].url == built.text
      && (lib.parse(url).Some? && HasHost(lib.parse(url).value) ==> log[|chain|].url == url)
      && log[|chain|].statusCode == (if RequestFor(built.uri) in oracle then Some(oracle[RequestFor(built.uri)].status) else None)
  {
  }

  /** How a hop whose URI was built and whose request was answered hands on
      to the rest of the resolution. */
  lemma UnshortenAfterStep(lib: UriLibrary, oracle: Oracle, maxRedirects: int, url: string, chain: seq<Entry>, built: BuiltUri)
    requires BuildUri(lib, url, chain) == Success(built)
    requires RequestFor(built.uri) in oracle
    ensures var step := Step(chain + [Entry(built.text, None)], oracle[RequestFor(built.uri)], maxRedirects);
      var r := Unshorten(lib, oracle, maxRedirects, url, chain);
      && (step.decision.Fail? ==> r == Resolution(step.chain, Failure(step.decision.error)))
      && (step.decision.Terminal? ==> r == Resolution(step.chain, Success(step.decision.body)))
      && (step.decision.Follow? ==> r == Unshorten(lib, oracle, maxRedirects, step.decision.location, step.chain))
  {
  }

  /** The checks of a hop, seen from the whole resolution: a redirect with no
      usable location, a redirect back to any URL of the chain (the one just
      recorded included), and a chain past `maxRedirects` each end the
      resolution with their own error, the first one that applies winning,
      and the failing hop's entry keeps its status. */
  lemma HopChecksInOrder(lib: UriLibrary, oracle: Oracle, maxRedirects: int, url: string, chain: seq<Entry>, built: BuiltUri)
    requires BuildUri(lib, url, chain) == Success(built)
    requires RequestFor(built.uri) in oracle
    ensures var r := Unshorten(lib, oracle, maxRedirects, url, chain);
      var response := oracle[RequestFor(built.uri)];
      var visited := chain + [Entry(built.text, None)];
      var redirect := response.status in RedirectCodes;
      var loop := response.location.Some? && exists i :: 0 <= i < |visited| && visited[i].url == response.location.value;
      var recorded := chain + [Entry(built.text, Some(response.status))];
      && (redirect && MissingLocation(response.location) ==>
            r == Resolution(recorded, Failure(EmptyLocation)))
      && (redirect && !MissingLocation(response.location) && loop ==>
            r == Resolution(recorded, Failure(RedirectLoop)))
      && (|visited| > maxRedirects && !(redirect && (MissingLocation(response.location) || loop)) ==>
            r == Resolution(recorded, Failure(MaxRedirects)))
  {
    var response := oracle[RequestFor(built.uri)];
    var visited := chain + [Entry(built.text, None)];
    StepChecks(visited, response, maxRedirects);
    StepBound(visited, response, maxRedirects);
    StepAppendsStatus(chain, built.text, response, maxRedirects);
    UnshortenAfterStep(lib, oracle, maxRedirects, url, chain, built);
  }

  /** Only when every check passes does a hop go on: a redirect with a usable
      location that matches no recorded URL, within the bound, continues at
      that raw location with the hop's status recorded; a non-redirect within
      the bound delivers its body. */
  lemma HopFollowsOrDelivers(lib: UriLibrary, oracle: Oracle, maxRedirects: int, url: string, chain: seq<Entry>, built: BuiltUri)
    requires BuildUri(lib, url, chain) == Success(built)
    requires RequestFor(built.uri) in oracle
    requires |chain| + 1 <= maxRedirects
    ensures var r := Unshorten(lib, oracle, maxRedirects, url, chain);
      var response := oracle[RequestFor(built.uri)];
      var recorded := chain + [Entry(built.text, Some(response.status))];
      && (response.status in RedirectCodes && !MissingLocation(response.location)
          && (forall i :: 0 <= i < |recorded| ==> recorded[i].url != response.location.value) ==>
            r == Unshorten(lib, oracle, maxRedirects, response.location.value, recorded))
      && (response.status !in RedirectCodes ==> r == Resolution(recorded, Success(response.body)))
  {
    HopFollows(lib, oracle, maxRedirects, url, chain, built);
    HopDelivers(lib, oracle, maxRedirects, url, chain, built);
  }

  /** The redirect half of `HopFollowsOrDelivers`. */
  lemma HopFollows(lib: UriLibrary, oracle: Oracle, maxRedirects: int, url: string, chain: seq<Entry>, built: BuiltUri)
    requires BuildUri(lib, url, chain) == Success(built)
    requires RequestFor(built.uri) in oracle
    requires |chain| + 1 <= maxRedirects
    ensures var response := oracle[RequestFor(built.uri)];
      var recorded := chain + [Entry(built.text, Some(response.status))];
      response.status in RedirectCodes && !MissingLocation(response.location)
      && (forall i :: 0 <= i < |recorded| ==> recorded[i].url != response.location.value) ==>
        Unshorten(lib, oracle, maxRedirects, url, chain)
          == Unshorten(lib, oracle, maxRedirects, response.location.value, recorded)
  {
    var response := oracle[RequestFor(built.uri)];
    var visited := chain + [Entry(built.text, None)];
    StepOutcomes(visited, response, maxRedirects);
    StepAppendsStatus(chain, built.text, response, maxRedirects);
    assert forall i :: 0 <= i < |visited| ==> visited[i].url == Step(visited, response, maxRedirects).chain[i].url;
    UnshortenAfterStep(lib, oracle, maxRedirects, url, chain, built);
  }

  /** The non-redirect half of `HopFollowsOrDelivers`. */
  lemma HopDelivers(lib: UriLibrary, oracle: Oracle, maxRedirects: int, url: string, chain: seq<Entry>, built: BuiltUri)
    requires BuildUri(lib, url, chain) == Success(built)
    requires RequestFor(built.uri) in oracle
    requires |chain| + 1 <= maxRedirects
    ensures var response := oracle[RequestFor(built.uri)];
      response.status !in RedirectCodes ==>
        Unshorten(lib, oracle, maxRedirects, url, chain)
          == Resolution(chain + [Entry(built.text, Some(response.status))], Success(response.body))
  {
    var response := oracle[RequestFor(built.uri)];
    var visited := chain + [Entry(built.text, None)];
    StepOutcomes(visited, response, maxRedirects);
    StepAppendsStatus(chain, built.text, response, maxRedirects);
    UnshortenAfterStep(lib, oracle, maxRedirects, url, chain, built);
  }

  /** A hop's response is written into the entry just appended, and into
      nothing else. */
  lemma StepAppendsStatus(chain: seq<Entry>, text: string, response: Response, maxRedirects: int)
    ensures Step(chain + [Entry(text, None)], response, maxRedirects).chain == chain + [Entry(text, Some(response.status))]
  {
    var visited := chain + [Entry(text, None)];
    assert forall i :: 0 <= i < |chain| ==> Step(visited, response, maxRedirects).chain[i] == visited[i];
  }

  /** The hop for `url` builds `uri`, records it as `recordedUrl`, and its
      request is answered with `response`. */
  predicate Answered(lib: UriLibrary, oracle: Oracle, url: string, chain: seq<Entry>,
                     uri: Uri, recordedUrl: string, response: Response) {
    && BuildUri(lib, url, chain) == Success(BuiltUri(uri, recordedUrl))
    && RequestFor(uri) in oracle
    && oracle[RequestFor(uri)] == response
  }

  /** A redirect with a usable location. */
  predicate UsableRedirect(response: Response) {
    response.status in RedirectCodes && response.location.Some? && !MissingLocation(response.location)
  }

  /** `location` is neither the URL just recorded nor any earlier one. */
  predicate NewLocation(chain: seq<Entry>, recordedUrl: string, location: string) {
    recordedUrl != location && forall i :: 0 <= i < |chain| ==> chain[i].url != location
  }

  /** A redirect hop that passes every check hands on to the next hop at its
      raw location, with its entry recorded. */
  lemma FollowHop(lib: UriLibrary, oracle: Oracle, maxRedirects: int, url: string, chain: seq<Entry>,
                  uri: Uri, recordedUrl: string, response: Response)
    requires Answered(lib, oracle, url, chain, uri, recordedUrl, response)
    requires UsableRedirect(response) && NewLocation(chain, recordedUrl, response.location.value)
    requires |chain| + 1 <= maxRedirects
    ensures Unshorten(lib, oracle, maxRedirects, url, chain)
      == Unshorten(lib, oracle, maxRedirects, response.location.value, chain + [Entry(recordedUrl, Some(response.status))])
  {
    HopFollowsOrDelivers(lib, oracle, maxRedirects, url, chain, BuiltUri(uri, recordedUrl));
  }

  /** A non-redirect hop within the bound ends the resolution with its body. */
  lemma DeliverHop(lib: UriLibrary, oracle: Oracle, maxRedirects: int, url: string, chain: seq<Entry>,
                   uri: Uri, recordedUrl: string, response: Response)
    requires Answered(lib, oracle, url, chain, uri, recordedUrl, response)
    requires response.status !in RedirectCodes
    requires |chain| + 1 <= maxRedirects
    ensures Unshorten(lib, oracle, maxRedirects, url, chain)
      == Resolution(chain + [Entry(recordedUrl, Some(response.status))], Success(response.body))
  {
    HopFollowsOrDelivers(lib, oracle, maxRedirects, url, chain, BuiltUri(uri, recordedUrl));
  }

  /** A redirect hop whose usable location is the URL of entry `j` of the log
      (the hop's own entry when `j == |chain|`) fails as a loop. */
  lemma LoopHop(lib: UriLibrary, oracle: Oracle, maxRedirects: int, url: string, chain: seq<Entry>,
                uri: Uri, recordedUrl: string, response: Response, j: nat)
    requires Answered(lib, oracle, url, chain, uri, recordedUrl, response)
    requires UsableRedirect(response)
    requires j < |chain| ==> chain[j].url == response.location.value
    requires j == |chain| ==> recordedUrl == response.location.value
    requires j <= |chain|
    ensures Unshorten(lib, oracle, maxRedirects, url, chain)
      == Resolution(chain + [Entry(recordedUrl, Some(response.status))], Failure(RedirectLoop))
  {
    var visited := chain + [Entry(recordedUrl, None)];
    assert visited[j].url == response.location.value;
    HopChecksInOrder(lib, oracle, maxRedirects, url, chain, BuiltUri(uri, recordedUrl));
  }

  /** A redirect hop that passes the location and loop checks but leaves the
      log past the bound fails with "max redirects count reached". */
  lemma BoundHop(lib: UriLibrary, oracle: Oracle, maxRedirects: int, url: string, chain: seq<Entry>,
                 uri: Uri, recordedUrl: string, response: Response)
    requires Answered(lib, oracle, url, chain, uri, recordedUrl, response)
    requires UsableRedirect(response) && NewLocation(chain, recordedUrl, response.location.value)
    requires |chain| + 1 > maxRedirects
    ensures Unshorten(lib, oracle, maxRedirects, url, chain)
      == Resolution(chain + [Entry(recordedUrl, Some(response.status))], Failure(MaxRedirects))
  {
    var location := response.location.value;
    var visited := chain + [Entry(recordedUrl, None)];
    assert forall i :: 0 <= i < |visited| ==> visited[i].url != location by {
      forall i | 0 <= i < |visited|
        ensures visited[i].url != location
      {
        if i < |chain| {
          assert visited[i] == chain[i];
        }
      }
    }
    HopChecksInOrder(lib, oracle, maxRedirects, url, chain, BuiltUri(uri, recordedUrl));
  }

  /** For every URI library: a URL with a usable host is recorded as written,
      so a usable redirect whose location is that same text, or the text of
      any entry already in the log, fails as a loop. */
  lemma RedirectToRecordedUrlIsLoop(lib: UriLibrary, oracle: Oracle, maxRedirects: int, url: string, chain: seq<Entry>)
    requires lib.parse(url).Some? && HasHost(lib.parse(url).value)
    requires RequestFor(lib.parse(url).value) in oracle
    requires var response := oracle[RequestFor(lib.parse(url).value)];
      && UsableRedirect(response)
      && (response.location.value == url || exists i :: 0 <= i < |chain| && chain[i].url == response.location.value)
    ensures var response := oracle[RequestFor(lib.parse(url).value)];
      Unshorten(lib, oracle, maxRedirects, url, chain)
        == Resolution(chain + [Entry(url, Some(response.status))], Failure(RedirectLoop))
  {
    var uri := lib.parse(url).value;
    var response := oracle[RequestFor(uri)];
    var j: nat := |chain|;
    if response.location.value != url {
      var i :| 0 <= i < |chain| && chain[i].url == response.location.value;
      j := i;
    }
    LoopHop(lib, oracle, maxRedirects, url, chain, uri, url, response, j);
  }

  /** A start URL answered by a non-redirect, with room for one hop, resolves
      to that response's body with a one-entry chain carrying its status. */
  lemma TerminalAtStart(lib: UriLibrary, oracle: Oracle, url: string, maxRedirects: int, uri: Uri)
    requires lib.parse(url) == Some(uri) && HasHost(uri)
    requires RequestFor(uri) in oracle && oracle[RequestFor(uri)].status !in RedirectCodes
    requires maxRedirects >= 1
    ensures Resolve(lib, oracle, url, maxRedirects)
      == Resolution([Entry(url, Some(oracle[RequestFor(uri)].status))], Success(oracle[RequestFor(uri)].body))
  {
    var response := oracle[RequestFor(uri)];
    StepDecision([Entry(url, None)], response, maxRedirects);
  }

  /** The first URL is never resolved against anything: whenever the chain has
      an entry at all, the start URL parsed to a URI with a non-blank host, and
      the first entry is that URL as written. */
  lemma FirstEntryIsAbsolute(lib: UriLibrary, oracle: Oracle, url: string, maxRedirects: int)
    ensures var r := Resolve(lib, oracle, url, maxRedirects);
      |r.chain| > 0 ==>
        lib.parse(url).Some? && HasHost(lib.parse(url).value) && r.chain[0].url == url
  {
    HopRecordsResolvedUrl(lib, oracle, maxRedirects, url, []);
    var h := VisitHop(lib, oracle, maxRedirects, url, []);
    if h.Next? {
      var r := Unshorten(lib, oracle, maxRedirects, h.location, h.chain);
      assert r.chain[0] == h.chain[0];
    }
  }

  /** `toObservable`: a resolution from the initial URL with an empty chain. */
  function Resolve(lib: UriLibrary, oracle: Oracle, url: string, maxRedirects: int): (r: Resolution)
    ensures |r.chain| <= if maxRedirects >= 0 then maxRedirects + 1 else 1
    ensures r.outcome.Success? ==> 1 <= |r.chain| <= maxRedirects
  {
    Unshorten(lib, oracle, maxRedirects, url, [])
  }

  /** `reduce(Buffer.buffer(), Buffer::appendBuffer)`: appends the chunks to
      the accumulator from the left. */
  function Reduce(acc: seq<byte>, chunks: seq<Chunk>): (r: seq<byte>)
    decreases |chunks|
    ensures acc <= r
    ensures |r| == |acc| + |Flatten(chunks)|
  {
    if |chunks| == 0 then acc else Reduce(acc + chunks[0], chunks[1..])
  }

  /** The chunks laid end to end, in order. */
  function Flatten(chunks: seq<Chunk>): (r: seq<byte>)
    ensures |chunks| > 0 ==> chunks[0] <= r
  {
    if |chunks| == 0 then [] else chunks[0] + Flatten(chunks[1..])
  }

  /** The left fold keeps every chunk, in arrival order, after what was
      already accumulated. */
  lemma {:induction false} ReduceIsFlatten(acc: seq<byte>, chunks: seq<Chunk>)
    ensures Reduce(acc, chunks) == acc + Flatten(chunks)
    decreases |chunks|
  {
    if |chunks| > 0 {
      ReduceIsFlatten(acc + chunks[0], chunks[1..]);
    }
  }

  /** `toObservableWholeBody`: the terminal body, buffered whole, or the error
      that ended the resolution. */
  function ResolveWholeBody(lib: UriLibrary, oracle: Oracle, url: string, maxRedirects: int): (r: Result<seq<byte>, Error>)
    ensures r.Failure? <==> Resolve(lib, oracle, url, maxRedirects).outcome.Failure?
    ensures r.Failure? ==> r.error == Resolve(lib, oracle, url, maxRedirects).outcome.error
    ensures r.Success? ==> r.value == Flatten(Resolve(lib, oracle, url, maxRedirects).outcome.value)
  {
    match Resolve(lib, oracle, url, maxRedirects).outcome
    case Failure(e) => Failure(e)
    case Success(chunks) =>
      ReduceIsFlatten([], chunks);
      Success(Reduce([], chunks))
  }
}

=== FILE: scenarios.dfy ===
/** Concrete redirect chains, worked through the model. The URI library stays
    abstract: each scenario only assumes how it parses, resolves and prints
    the handful of URLs involved. */
module Scenarios {
  import opened Optional
  import opened JavaText
  import opened Uris
  import opened Transport
  import opened Hop
  import opened Resolver

  /** A URI with a scheme, a host, no port, a path and nothing else. */
  function WebUri(scheme: string, host: string, path: string): Uri {
    Uri(Some(scheme), Some(host), -1, Some(path), None, None)
  }

  /** The library parses `s` to `u`. */
  predicate Knows(lib: UriLibrary, s: string, u: Uri) {
    lib.parse(s) == Some(u)
  }

  lemma NotBlank(s: string)
    requires |s| > 0 && s[0] > ' '
    ensures !IsBlank(s)
  {
  }

  /** A URL that parses with a non-blank host is used as it is, whatever the log. */
  lemma AbsoluteBuilds(lib: UriLibrary, s: string, u: Uri, chain: seq<Entry>)
    requires Knows(lib, s, u)
    requires u.host.Some? && |u.host.value| > 0 && u.host.value[0] > ' '
    ensures BuildUri(lib, s, chain) == Success(BuiltUri(u, s))
  {
    NotBlank(u.host.value);
  }

  /** A location that starts with a char above U+0020 is usable. */
  lemma Usable(s: string)
    requires |s| > 0 && s[0] > ' '
    ensures !MissingLocation(Some(s))
  {
    NotBlank(s);
  }

  /** Appending an entry to a log of up to two entries, written out. */
  lemma ShortLogs<T>(a: T, b: T, c: T)
    ensures [] + [a] == [a] && [a] + [b] == [a, b] && [a, b] + [c] == [a, b, c]
  {
  }

  /** A plain `http` URI without a port dials port 80 without TLS, and an
      `https` one dials port 443 with TLS. */
  lemma WebRequests(host: string, path: string)
    ensures RequestFor(WebUri("http", host, path)) == Request(false, 80, Some(host), Some(path))
    ensures RequestFor(WebUri("https", host, path)) == Request(true, 443, Some(host), Some(path))
  {
    assert LowerAll("http") == "http";
    assert LowerAll("https") == "https";
  }

  const ShortUri := WebUri("http", "t.co", "/abc")
  const BitlyUri := WebUri("https", "bit.ly", "/xyz")
  const FinalUri := WebUri("http", "example.com", "/final")

  /** t.co answers 301 to bit.ly, bit.ly answers 302 to example.com, and
      example.com answers 200 with "ok". */
  const WorkedOracle: Oracle := map[
    Request(false, 80, Some("t.co"), Some("/abc")) := Response(301, Some("https://bit.ly/xyz"), []),
    Request(true, 443, Some("bit.ly"), Some("/xyz")) := Response(302, Some("http://example.com/final"), []),
    Request(false, 80, Some("example.com"), Some("/final")) := Response(200, None, [[111, 107]])]

  predicate KnowsWorkedUrls(lib: UriLibrary) {
    && Knows(lib, "http://t.co/abc", ShortUri)
    && Knows(lib, "https://bit.ly/xyz", BitlyUri)
    && Knows(lib, "http://example.com/final", FinalUri)
  }

  /** What the three hops of the worked chain are answered. */
  lemma WorkedAnswers()
    ensures RequestFor(ShortUri) in WorkedOracle
      && WorkedOracle[RequestFor(ShortUri)] == Response(301, Some("https://bit.ly/xyz"), [])
    ensures RequestFor(BitlyUri) in WorkedOracle
      && WorkedOracle[RequestFor(BitlyUri)] == Response(302, Some("http://example.com/final"), [])
    ensures RequestFor(FinalUri) in WorkedOracle
      && WorkedOracle[RequestFor(FinalUri)] == Response(200, None, [[111, 107]])
  {
    WebRequests("t.co", "/abc");
    WebRequests("bit.ly", "/xyz");
    WebRequests("example.com", "/final");
  }

  const ToBitly := Response(301, Some("https://bit.ly/xyz"), [])
  const ToFinal := Response(302, Some("http://example.com/final"), [])
  const Ok := Response(200, None, [[111, 107]])

  /** The first hop builds and records t.co, and is sent on to bit.ly. */
  lemma WorkedFirstFacts(lib: UriLibrary)
    requires KnowsWorkedUrls(lib)
    ensures Answered(lib, WorkedOracle, "http://t.co/abc", [], ShortUri, "http://t.co/abc", ToBitly)
    ensures UsableRedirect(ToBitly) && NewLocation([], "http://t.co/abc", "https://bit.ly/xyz")
  {
    AbsoluteBuilds(lib, "http://t.co/abc", ShortUri, []);
    WorkedAnswers();
    Usable("https://bit.ly/xyz");
  }

  /** The second hop builds and records bit.ly, and is sent on to example.com. */
  lemma WorkedSecondFacts(lib: UriLibrary)
    requires KnowsWorkedUrls(lib)
    ensures Answered(lib, WorkedOracle, "https://bit.ly/xyz", [Entry("http://t.co/abc", Some(301))],
                     BitlyUri, "https://bit.ly/xyz", ToFinal)
    ensures UsableRedirect(ToFinal)
      && NewLocation([Entry("http://t.co/abc", Some(301))], "https://bit.ly/xyz", "http://example.com/final")
  {
    AbsoluteBuilds(lib, "https://bit.ly/xyz", BitlyUri, [Entry("http://t.co/abc", Some(301))]);
    WorkedAnswers();
    Usable("http://example.com/final");
  }

  /** The last hop builds and records example.com, and is answered "ok". */
  lemma WorkedLastFacts(lib: UriLibrary)
    requires KnowsWorkedUrls(lib)
    ensures Answered(lib, WorkedOracle, "http://example.com/final",
                     [Entry("http://t.co/abc", Some(301)), Entry("https://bit.ly/xyz", Some(302))],
                     FinalUri, "http://example.com/final", Ok)
  {
    AbsoluteBuilds(lib, "http://example.com/final", FinalUri,
                   [Entry("http://t.co/abc", Some(301)), Entry("https://bit.ly/xyz", Some(302))]);
    WorkedAnswers();
  }

  lemma WorkedFirstHop(lib: UriLibrary)
    requires KnowsWorkedUrls(lib)
    ensures Unshorten(lib, WorkedOracle, 5, "http://t.co/abc", [])
      == Unshorten(lib, WorkedOracle, 5, "https://bit.ly/xyz", [Entry("http://t.co/abc", Some(301))])
  {
    WorkedFirstFacts(lib);
    FollowHop(lib, WorkedOracle, 5, "http://t.co/abc", [], ShortUri, "http://t.co/abc", ToBitly);
    ShortLogs(Entry("http://t.co/abc", Some(301)), Entry("http://t.co/abc", Some(301)), Entry("http://t.co/abc", Some(301)));
  }

  lemma WorkedSecondHop(lib: UriLibrary)
    requires KnowsWorkedUrls(lib)
    ensures Unshorten(lib, WorkedOracle, 5, "https://bit.ly/xyz", [Entry("http://t.co/abc", Some(301))])
      == Unshorten(lib, WorkedOracle, 5, "http://example.com/final",
                   [Entry("http://t.co/abc", Some(301)), Entry("https://bit.ly/xyz", Some(302))])
  {
    var c1 := [Entry("http://t.co/abc", Some(301))];
    WorkedSecondFacts(lib);
    FollowHop(lib, WorkedOracle, 5, "https://bit.ly/xyz", c1, BitlyUri, "https://bit.ly/xyz", ToFinal);
    ShortLogs(Entry("http://t.co/abc", Some(301)), Entry("https://bit.ly/xyz", Some(302)), Entry("https://bit.ly/xyz", Some(302)));
  }

  lemma WorkedLastHop(lib: UriLibrary)
    requires KnowsWorkedUrls(lib)
    ensures Unshorten(lib, WorkedOracle, 5, "http://example.com/final",
                      [Entry("http://t.co/abc", Some(301)), Entry("https://bit.ly/xyz", Some(302))])
      == Resolution(
           [Entry("http://t.co/abc", Some(301)), Entry("https://bit.ly/xyz", Some(302)), Entry("http://example.com/final", Some(200))],
           Success([[111, 107]]))
  {
    var c2 := [Entry("http://t.co/abc", Some(301)), Entry("https://bit.ly/xyz", Some(302))];
    WorkedLastFacts(lib);
    DeliverHop(lib, WorkedOracle, 5, "http://example.com/final", c2, FinalUri, "http://example.com/final", Ok);
  }

  /** The whole worked chain: the three URLs in visiting order with their
      statuses, and the body "ok". */
  lemma WorkedExample(lib: UriLibrary)
    requires KnowsWorkedUrls(lib)
    ensures Resolve(lib, WorkedOracle, "http://t.co/abc", 5)
      == Resolution(
           [Entry("http://t.co/abc", Some(301)), Entry("https://bit.ly/xyz", Some(302)), Entry("http://example.com/final", Some(200))],
           Success([[111, 107]]))
  {
    WorkedFirstHop(lib);
    WorkedSecondHop(lib);
    WorkedLastHop(lib);
  }

  const PageA := WebUri("http", "a.example", "/")
  const PageB := WebUri("http", "b.example", "/")
  const PageC := WebUri("http", "c.example", "/")

  predicate KnowsPages(lib: UriLibrary) {
    && Knows(lib, "http://a.example/", PageA)
    && Knows(lib, "http://b.example/", PageB)
    && Knows(lib, "http://c.example/", PageC)
  }

  /** A redirects to B, B to C, and C back to B. */
  const CycleOracle: Oracle := map[
    Request(false, 80, Some("a.example"), Some("/")) := Response(301, Some("http://b.example/"), []),
    Request(false, 80, Some("b.example"), Some("/")) := Response(301, Some("http://c.example/"), []),
    Request(false, 80, Some("c.example"), Some("/")) := Response(301, Some("http://b.example/"), [])]

  /** A redirects to B, B to C, and C on to D. */
  const LongOracle: Oracle := map[
    Request(false, 80, Some("a.example"), Some("/")) := Response(301, Some("http://b.example/"), []),
    Request(false, 80, Some("b.example"), Some("/")) := Response(301, Some("http://c.example/"), []),
    Request(false, 80, Some("c.example"), Some("/")) := Response(301, Some("http://d.example/"), [])]

  const ToB := Response(301, Some("http://b.example/"), [])
  const ToC := Response(301, Some("http://c.example/"), [])
  const ToD := Response(301, Some("http://d.example/"), [])

  /** A and B redirect as in both chains above. */
  predicate AnswersPages(oracle: Oracle) {
    && RequestFor(PageA) in oracle && oracle[RequestFor(PageA)] == ToB
    && RequestFor(PageB) in oracle && oracle[RequestFor(PageB)] == ToC
  }

  /** The cycle's answers to A, B and C. */
  lemma CycleAnswers()
    ensures AnswersPages(CycleOracle)
    ensures RequestFor(PageC) in CycleOracle && CycleOracle[RequestFor(PageC)] == ToB
  {
    WebRequests("a.example", "/");
    WebRequests("b.example", "/");
    WebRequests("c.example", "/");
  }

  /** The long chain's answers to A, B and C. */
  lemma LongAnswers()
    ensures AnswersPages(LongOracle)
    ensures RequestFor(PageC) in LongOracle && LongOracle[RequestFor(PageC)] == ToD
  {
    WebRequests("a.example", "/");
    WebRequests("b.example", "/");
    WebRequests("c.example", "/");
  }

  /** The hop to A builds and records A, and is sent on to B. */
  lemma PageAFacts(lib: UriLibrary, oracle: Oracle)
    requires KnowsPages(lib) && AnswersPages(oracle)
    ensures Answered(lib, oracle, "http://a.example/", [], PageA, "http://a.example/", ToB)
    ensures UsableRedirect(ToB) && NewLocation([], "http://a.example/", "http://b.example/")
  {
    AbsoluteBuilds(lib, "http://a.example/", PageA, []);
    Usable("http://b.example/");
  }

  /** The hop to B builds and records B, and is sent on to C. */
  lemma PageBFacts(lib: UriLibrary, oracle: Oracle)
    requires KnowsPages(lib) && AnswersPages(oracle)
    ensures Answered(lib, oracle, "http://b.example/", [Entry("http://a.example/", Some(301))], PageB, "http://b.example/", ToC)
    ensures UsableRedirect(ToC) && NewLocation([Entry("http://a.example/", Some(301))], "http://b.example/", "http://c.example/")
  {
    AbsoluteBuilds(lib, "http://b.example/", PageB, [Entry("http://a.example/", Some(301))]);
    Usable("http://c.example/");
  }

  lemma PagesHopA(lib: UriLibrary, oracle: Oracle, maxRedirects: int)
    requires KnowsPages(lib) && AnswersPages(oracle) && maxRedirects >= 2
    ensures Unshorten(lib, oracle, maxRedirects, "http://a.example/", [])
      == Unshorten(lib, oracle, maxRedirects, "http://b.example/", [Entry("http://a.example/", Some(301))])
  {
    PageAFacts(lib, oracle);
    FollowHop(lib, oracle, maxRedirects, "http://a.example/", [], PageA, "http://a.example/", ToB);
    ShortLogs(Entry("http://a.example/", Some(301)), Entry("http://a.example/", Some(301)), Entry("http://a.example/", Some(301)));
  }

  lemma PagesHopB(lib: UriLibrary, oracle: Oracle, maxRedirects: int)
    requires KnowsPages(lib) && AnswersPages(oracle) && maxRedirects >= 2
    ensures Unshorten(lib, oracle, maxRedirects, "http://b.example/", [Entry("http://a.example/", Some(301))])
      == Unshorten(lib, oracle, maxRedirects, "http://c.example/",
                   [Entry("http://a.example/", Some(301)), Entry("http://b.example/", Some(301))])
  {
    var c1 := [Entry("http://a.example/", Some(301))];
    PageBFacts(lib, oracle);
    FollowHop(lib, oracle, maxRedirects, "http://b.example/", c1, PageB, "http://b.example/", ToC);
    ShortLogs(Entry("http://a.example/", Some(301)), Entry("http://b.example/", Some(301)), Entry("http://b.example/", Some(301)));
  }

  /** In the cycle, the hop to C builds and records C, and is sent back to B. */
  lemma CyclePageCFacts(lib: UriLibrary)
    requires KnowsPages(lib)
    ensures Answered(lib, CycleOracle, "http://c.example/",
                     [Entry("http://a.example/", Some(301)), Entry("http://b.example/", Some(301))],
                     PageC, "http://c.example/", ToB)
    ensures UsableRedirect(ToB)
  {
    AbsoluteBuilds(lib, "http://c.example/", PageC,
                   [Entry("http://a.example/", Some(301)), Entry("http://b.example/", Some(301))]);
    CycleAnswers();
    Usable("http://b.example/");
  }

  /** In the long chain, the hop to C builds and records C. */
  lemma LongPageCFacts(lib: UriLibrary)
    requires KnowsPages(lib)
    ensures Answered(lib, LongOracle, "http://c.example/",
                     [Entry("http://a.example/", Some(301)), Entry("http://b.example/", Some(301))],
                     PageC, "http://c.example/", ToD)
  {
    AbsoluteBuilds(lib, "http://c.example/", PageC,
                   [Entry("http://a.example/", Some(301)), Entry("http://b.example/", Some(301))]);
    LongAnswers();
  }

  /** D is a usable location. */
  lemma PageDIsUsable()
    ensures UsableRedirect(ToD)
  {
    Usable("http://d.example/");
  }

  /** D is none of A, B and C. */
  lemma PageDIsNew()
    ensures NewLocation([Entry("http://a.example/", Some(301)), Entry("http://b.example/", Some(301))],
                        "http://c.example/", "http://d.example/")
  {
    var chain := [Entry("http://a.example/", Some(301)), Entry("http://b.example/", Some(301))];
    forall i | 0 <= i < |chain|
      ensures chain[i].url != "http://d.example/"
    {
      assert chain[i].url[7] != 'd';
    }
    assert "http://c.example/"[7] != "http://d.example/"[7];
  }

  /** A → B → C → B fails on the repeat of B, although B is not the URL just
      left: the whole chain is searched. */
  lemma CycleIsDetected(lib: UriLibrary)
    requires KnowsPages(lib)
    ensures Resolve(lib, CycleOracle, "http://a.example/", 5)
      == Resolution(
           [Entry("http://a.example/", Some(301)), Entry("http://b.example/", Some(301)), Entry("http://c.example/", Some(301))],
           Failure(RedirectLoop))
  {
    CycleAnswers();
    PagesHopA(lib, CycleOracle, 5);
    PagesHopB(lib, CycleOracle, 5);
    CycleLastHop(lib);
  }

  lemma CycleLastHop(lib: UriLibrary)
    requires KnowsPages(lib)
    ensures Unshorten(lib, CycleOracle, 5, "http://c.example/",
                      [Entry("http://a.example/", Some(301)), Entry("http://b.example/", Some(301))])
      == Resolution(
           [Entry("http://a.example/", Some(301)), Entry("http://b.example/", Some(301)), Entry("http://c.example/", Some(301))],
           Failure(RedirectLoop))
  {
    var c2 := [Entry("http://a.example/", Some(301)), Entry("http://b.example/", Some(301))];
    CyclePageCFacts(lib);
    LoopHop(lib, CycleOracle, 5, "http://c.example/", c2, PageC, "http://c.example/", ToB, 1);
    ShortLogs(Entry("http://a.example/", Some(301)), Entry("http://b.example/", Some(301)), Entry("http://c.example/", Some(301)));
  }

  /** With `maxRedirects` 2, A → B → C → D stops at C: three entries, one more
      than the bound, and no loop involved. */
  lemma LongChainIsCut(lib: UriLibrary)
    requires KnowsPages(lib)
    ensures Resolve(lib, LongOracle, "http://a.example/", 2)
      == Resolution(
           [Entry("http://a.example/", Some(301)), Entry("http://b.example/", Some(301)), Entry("http://c.example/", Some(301))],
           Failure(MaxRedirects))
  {
    LongAnswers();
    PagesHopA(lib, LongOracle, 2);
    PagesHopB(lib, LongOracle, 2);
    LongLastHop(lib);
  }

  lemma LongLastHop(lib: UriLibrary)
    requires KnowsPages(lib)
    ensures Unshorten(lib, LongOracle, 2, "http://c.example/",
                      [Entry("http://a.example/", Some(301)), Entry("http://b.example/", Some(301))])
      == Resolution(
           [Entry("http://a.example/", Some(301)), Entry("http://b.example/", Some(301)), Entry("http://c.example/", Some(301))],
           Failure(MaxRedirects))
  {
    var c2 := [Entry("http://a.example/", Some(301)), Entry("http://b.example/", Some(301))];
    LongPageCFacts(lib);
    PageDIsUsable();
    PageDIsNew();
    BoundHop(lib, LongOracle, 2, "http://c.example/", c2, PageC, "http://c.example/", ToD);
    ShortLogs(Entry("http://a.example/", Some(301)), Entry("http://b.example/", Some(301)), Entry("http://c.example/", Some(301)));
  }

  const PageX := WebUri("http", "a.example", "/x")
  const RelativeX := Uri(None, None, -1, Some("/x"), None, None)

  /** The library parses the relative "/x", resolves it against
      "http://a.example/x" to that same URI, and prints the result as
      "http://a.example/x". */
  predicate KnowsRelativeX(lib: UriLibrary) {
    && Knows(lib, "http://a.example/x", PageX)
    && lib.parse("/x") == Some(RelativeX)
    && lib.resolve(PageX, RelativeX) == PageX
    && lib.format(PageX) == "http://a.example/x"
  }

  /** "http://a.example/x" redirects to the relative "/x", that is, to itself. */
  const SelfOracle: Oracle := map[
    Request(false, 80, Some("a.example"), Some("/x")) := Response(301, Some("/x"), [])]

  const ToX := Response(301, Some("/x"), [])

  /** The page's request is answered with a 301 to "/x". */
  lemma SelfAnswer()
    ensures RequestFor(PageX) in SelfOracle && SelfOracle[RequestFor(PageX)] == ToX
  {
    WebRequests("a.example", "/x");
  }

  /** Each hop of the self-redirect builds the page and records its URL; "/x"
      never equals a recorded URL. */
  lemma SelfHopFacts(lib: UriLibrary, chain: seq<Entry>)
    requires KnowsRelativeX(lib)
    requires forall i :: 0 <= i < |chain| ==> chain[i].url == "http://a.example/x"
    ensures |chain| == 0 ==> Answered(lib, SelfOracle, "http://a.example/x", chain, PageX, "http://a.example/x", ToX)
    ensures |chain| > 0 ==> Answered(lib, SelfOracle, "/x", chain, PageX, "http://a.example/x", ToX)
    ensures UsableRedirect(ToX) && NewLocation(chain, "http://a.example/x", "/x")
  {
    if |chain| == 0 {
      AbsoluteBuilds(lib, "http://a.example/x", PageX, chain);
    } else {
      RelativeXBuilds(lib, chain);
    }
    SelfAnswer();
    Usable("/x");
  }

  /** After a hop to the page, "/x" is resolved against it (neither URI makes
      `resolve` hand its argument back) and printed as the page's URL. */
  lemma RelativeXBuilds(lib: UriLibrary, chain: seq<Entry>)
    requires KnowsRelativeX(lib)
    requires |chain| > 0 && chain[|chain| - 1].url == "http://a.example/x"
    ensures BuildUri(lib, "/x", chain) == Success(BuiltUri(PageX, "http://a.example/x"))
  {
    assert !HasHost(RelativeX) && !ResolvesToItself(PageX, RelativeX);
  }

  lemma SelfFirstHop(lib: UriLibrary)
    requires KnowsRelativeX(lib)
    ensures Unshorten(lib, SelfOracle, 2, "http://a.example/x", [])
      == Unshorten(lib, SelfOracle, 2, "/x", [Entry("http://a.example/x", Some(301))])
  {
    SelfHopFacts(lib, []);
    var e := Entry("http://a.example/x", Some(301));
    FollowHop(lib, SelfOracle, 2, "http://a.example/x", [], PageX, "http://a.example/x", ToX);
    ShortLogs(e, e, e);
  }

  lemma SelfSecondHop(lib: UriLibrary)
    requires KnowsRelativeX(lib)
    ensures Unshorten(lib, SelfOracle, 2, "/x", [Entry("http://a.example/x", Some(301))])
      == Unshorten(lib, SelfOracle, 2, "/x", [Entry("http://a.example/x", Some(301)), Entry("http://a.example/x", Some(301))])
  {
    var e := Entry("http://a.example/x", Some(301));
    SelfHopFacts(lib, [e]);
    FollowHop(lib, SelfOracle, 2, "/x", [e], PageX, "http://a.example/x", ToX);
    ShortLogs(e, e, e);
  }

  lemma SelfLastHop(lib: UriLibrary)
    requires KnowsRelativeX(lib)
    ensures Unshorten(lib, SelfOracle, 2, "/x", [Entry("http://a.example/x", Some(301)), Entry("http://a.example/x", Some(301))])
      == Resolution(
           [Entry("http://a.example/x", Some(301)), Entry("http://a.example/x", Some(301)), Entry("http://a.example/x", Some(301))],
           Failure(MaxRedirects))
  {
    var e := Entry("http://a.example/x", Some(301));
    SelfHopFacts(lib, [e, e]);
    BoundHop(lib, SelfOracle, 2, "/x", [e, e], PageX, "http://a.example/x", ToX);
    ShortLogs(e, e, e);
  }

  /** The loop check compares the raw location with the recorded, resolved
      URLs, so a relative self-redirect is never reported as a loop: it is
      followed until the chain passes `maxRedirects`, every entry the same URL. */
  lemma RelativeSelfRedirectRunsToTheBound(lib: UriLibrary)
    requires KnowsRelativeX(lib)
    ensures Resolve(lib, SelfOracle, "http://a.example/x", 2)
      == Resolution(
           [Entry("http://a.example/x", Some(301)), Entry("http://a.example/x", Some(301)), Entry("http://a.example/x", Some(301))],
           Failure(MaxRedirects))
  {
    SelfFirstHop(lib);
    SelfSecondHop(lib);
    SelfLastHop(lib);
  }

  /** The same page redirecting to itself by its absolute URL is caught as a
      loop on the first hop. */
  lemma AbsoluteSelfRedirectIsALoop(lib: UriLibrary)
    requires Knows(lib, "http://a.example/x", PageX)
    ensures Resolve(lib, map[RequestFor(PageX) := Response(301, Some("http://a.example/x"), [])], "http://a.example/x", 2)
      == Resolution([Entry("http://a.example/x", Some(301))], Failure(RedirectLoop))
  {
    var oracle := map[RequestFor(PageX) := Response(301, Some("http://a.example/x"), [])];
    AbsoluteSelfFacts(lib);
    LoopHop(lib, oracle, 2, "http://a.example/x", [], PageX, "http://a.example/x",
            Response(301, Some("http://a.example/x"), []), 0);
    ShortLogs(Entry("http://a.example/x", Some(301)), Entry("http://a.example/x", Some(301)), Entry("http://a.example/x", Some(301)));
  }

  lemma AbsoluteSelfFacts(lib: UriLibrary)
    requires Knows(lib, "http://a.example/x", PageX)
    ensures var back := Response(301, Some("http://a.example/x"), []);
      && Answered(lib, map[RequestFor(PageX) := back], "http://a.example/x", [], PageX, "http://a.example/x", back)
      && UsableRedirect(back)
  {
    AbsoluteBuilds(lib, "http://a.example/x", PageX, []);
    Usable("http://a.example/x");
  }
}

=== FILE: text.dfy ===
/** The two pieces of `java.lang.String` behaviour the redirect handler relies on:
    `trim().isEmpty()` as a blankness test, and `equalsIgnoreCase` for scheme names. */
module JavaText {
  import opened Optional

  /** `String.trim` removes every char whose code is at or below U+0020. */
  predicate IsTrimmable(c: char) {
    c <= ' '
  }

  /** Drops the leading trimmable chars (the first loop of `String.trim`). */
  function TrimStart(s: string): (r: string)
    ensures |r| <= |s| && r == s[|s| - |r|..]
    ensures forall k :: 0 <= k < |s| - |r| ==> IsTrimmable(s[k])
    ensures r == [] || !IsTrimmable(r[0])
  {
    if |s| > 0 && IsTrimmable(s[0]) then TrimStart(s[1..]) else s
  }

  /** Drops the trailing trimmable chars (the second loop of `String.trim`). */
  function TrimEnd(s: string): (r: string)
    ensures |r| <= |s| && r == s[..|r|]
    ensures forall k :: |r| <= k < |s| ==> IsTrimmable(s[k])
    ensures r == [] || !IsTrimmable(r[|r| - 1])
  {
    if |s| > 0 && IsTrimmable(s[|s| - 1]) then TrimEnd(s[..|s| - 1]) else s
  }

  /** `String.trim`: the result is empty exactly when every char is trimmable,
      and otherwise starts and ends with a char that is not. */
  function Trim(s: string): (r: string)
    ensures |r| <= |s|
    ensures r == [] <==> forall k :: 0 <= k < |s| ==> IsTrimmable(s[k])
    ensures r == [] || (!IsTrimmable(r[0]) && !IsTrimmable(r[|r| - 1]))
  {
    TrimEnds(s);
    TrimEnd(TrimStart(s))
  }

  lemma TrimEnds(s: string)
    ensures TrimEnd(TrimStart(s)) == [] <==> forall k :: 0 <= k < |s| ==> IsTrimmable(s[k])
    ensures TrimEnd(TrimStart(s)) == [] || !IsTrimmable(TrimEnd(TrimStart(s))[0])
  {
    var front := TrimStart(s);
    var r := TrimEnd(front);
    if r != [] {
      assert r[0] == front[0] == s[|s| - |front|];
    }
  }

  /** What `String.trim` returns is one slice of `s`, starting after the
      leading trimmable chars, with only trimmable chars after it. */
  lemma TrimIsSlice(s: string)
    ensures TrimOffset(s) + |Trim(s)| <= |s|
    ensures Trim(s) == s[TrimOffset(s)..TrimOffset(s) + |Trim(s)|]
    ensures forall k :: 0 <= k < TrimOffset(s) ==> IsTrimmable(s[k])
    ensures forall k :: TrimOffset(s) + |Trim(s)| <= k < |s| ==> IsTrimmable(s[k])
  {
    var front := TrimStart(s);
    var r := TrimEnd(front);
    var i := |s| - |front|;
    assert Trim(s) == r && TrimOffset(s) == i;
    PrefixOfSuffix(s, i, |r|);
    TrailerOfSuffix(s, i, |r|);
  }

  /** Taking `n` chars after position `i` is the slice `s[i..i + n]`. */
  lemma PrefixOfSuffix(s: string, i: nat, n: nat)
    requires i + n <= |s|
    ensures s[i..][..n] == s[i..i + n]
  {
  }

  /** The chars left after the first `n` of `s[i..]` are those of `s` from `i + n` on. */
  lemma TrailerOfSuffix(s: string, i: nat, n: nat)
    requires i + n <= |s|
    ensures forall k :: n <= k < |s| - i ==> s[i..][k] == s[i + k]
  {
  }

  /** Where the first loop of `String.trim` stops: the count of leading
      trimmable chars. */
  function TrimOffset(s: string): (i: nat)
    ensures i <= |s|
  {
    |s| - |TrimStart(s)|
  }

  /** `s.trim().isEmpty()`. */
  predicate IsBlank(s: string) {
    Trim(s) == []
  }

  function ToUpper(c: char): char {
    if 'a' <= c <= 'z' then (c as int - 32) as char else c
  }

  function ToLower(c: char): char {
    if 'A' <= c <= 'Z' then (c as int + 32) as char else c
  }

  /** The per-char test of `String.regionMatches(true, ...)`. */
  predicate CharsMatchIgnoringCase(a: char, b: char) {
    a == b || ToUpper(a) == ToUpper(b) || ToLower(ToUpper(a)) == ToLower(ToUpper(b))
  }

  lemma CharsMatchIffSameLower(a: char, b: char)
    ensures CharsMatchIgnoringCase(a, b) <==> ToLower(a) == ToLower(b)
  {
  }

  /** Scans both strings char by char, as `regionMatches` does. */
  function RegionMatches(a: string, b: string): (r: bool)
    requires |a| == |b|
    ensures r <==> forall k :: 0 <= k < |a| ==> ToLower(a[k]) == ToLower(b[k])
  {
    if |a| == 0 then true
    else
      CharsMatchIffSameLower(a[0], b[0]);
      CharsMatchIgnoringCase(a[0], b[0]) && RegionMatches(a[1..], b[1..])
  }

  /** `s.equalsIgnoreCase(other)`, where `other` may be null. */
  predicate EqualsIgnoreCase(s: string, other: Option<string>) {
    other.Some? && |s| == |other.value| && RegionMatches(s, other.value)
  }

  /** The string with every ASCII upper-case letter lowered. */
  function LowerAll(s: string): (r: string)
    ensures |r| == |s|
    ensures forall k :: 0 <= k < |s| ==> r[k] == ToLower(s[k])
  {
    seq(|s|, k requires 0 <= k < |s| => ToLower(s[k]))
  }

  /** Case-insensitive equality is equality of the lowered strings; a null
      argument never matches. */
  lemma EqualsIgnoreCaseIffLowerEqual(s: string, other: Option<string>)
    ensures EqualsIgnoreCase(s, other) <==> other.Some? && LowerAll(s) == LowerAll(other.value)
  {
    if other.Some? && LowerAll(s) == LowerAll(other.value) {
      assert |s| == |other.value|;
      forall k | 0 <= k < |s|
        ensures ToLower(s[k]) == ToLower(other.value[k])
      {
        assert LowerAll(s)[k] == LowerAll(other.value)[k];
      }
    }
  }
}

=== FILE: transport.dfy ===
/** Per-hop transport setup: whether the hop uses TLS, which port it dials,
    and the request target sent on the request line. */
module Transport {
  import opened Optional
  import opened JavaText
  import opened Uris

  /** What the HTTP client is asked to do for one hop. */
  datatype Request = Request(ssl: bool, port: int, host: Option<string>, target: Option<string>)

  /** TLS is switched on exactly for the scheme `https`, in any letter case;
      a missing scheme never matches. */
  function IsSsl(u: Uri): (r: bool)
    ensures r <==> u.scheme.Some? && LowerAll(u.scheme.value) == "https"
  {
    EqualsIgnoreCaseIffLowerEqual("https", u.scheme);
    assert LowerAll("https") == "https";
    EqualsIgnoreCase("https", u.scheme)
  }

  /** An explicit positive port wins; otherwise `http` dials 80 and `https`
      dials 443 (in any letter case); any other scheme keeps the non-positive
      port it had, without an error. */
  function Port(u: Uri): (r: int)
    ensures u.port > 0 ==> r == u.port
    ensures u.port <= 0 && u.scheme.Some? && LowerAll(u.scheme.value) == "http" ==> r == 80
    ensures u.port <= 0 && u.scheme.Some? && LowerAll(u.scheme.value) == "https" ==> r == 443
    ensures u.port <= 0 && !(u.scheme.Some? && LowerAll(u.scheme.value) in {"http", "https"}) ==> r == u.port
  {
    EqualsIgnoreCaseIffLowerEqual("http", u.scheme);
    EqualsIgnoreCaseIffLowerEqual("https", u.scheme);
    assert LowerAll("http") == "http";
    assert LowerAll("https") == "https";
    var port := u.port;
    if port <= 0 then
      if EqualsIgnoreCase("http", u.scheme) then 80
      else if EqualsIgnoreCase("https", u.scheme) then 443
      else port
    else port
  }

  /** A query or fragment is sent when it is present and not blank; it is then
      sent as it is, untrimmed. */
  function Kept(part: Option<string>): (r: Option<string>)
    ensures r.Some? <==> part.Some? && exists k :: 0 <= k < |part.value| && !IsTrimmable(part.value[k])
    ensures r.Some? ==> r == part
  {
    if part.Some? && !IsBlank(part.value) then part else None
  }

  /** Java's `String` conversion of a possibly-null reference. */
  function JavaString(s: Option<string>): string {
    if s.Some? then s.value else "null"
  }

  /** The request target: raw path, then `?` and the raw query, then `#` and
      the raw fragment, each appended only when kept. Java's `+=` on a null
      path yields the text "null" followed by the appended part; a null path
      with nothing appended stays null. */
  function RequestTarget(u: Uri): (r: Option<string>)
    ensures u.rawPath.Some? ==>
      r == Some(u.rawPath.value + Joined('?', Kept(u.rawQuery)) + Joined('#', Kept(u.rawFragment)))
    ensures u.rawPath.None? && Kept(u.rawQuery).Some? ==>
      r == Some("null?" + u.rawQuery.value + Joined('#', Kept(u.rawFragment)))
    ensures u.rawPath.None? && Kept(u.rawQuery).None? && Kept(u.rawFragment).Some? ==>
      r == Some("null#" + u.rawFragment.value)
    ensures u.rawPath.None? && Kept(u.rawQuery).None? && Kept(u.rawFragment).None? ==> r.None?
  {
    AppendParts(u.rawPath, Kept(u.rawQuery), Kept(u.rawFragment))
  }

  /** `requestURI = path; requestURI += "?" + query; requestURI += "#" + fragment`,
      each `+=` only for a part that is present. */
  function AppendParts(path: Option<string>, query: Option<string>, fragment: Option<string>): (r: Option<string>)
    ensures path.Some? ==> r == Some(path.value + Joined('?', query) + Joined('#', fragment))
    ensures path.None? && query.Some? ==> r == Some("null?" + query.value + Joined('#', fragment))
    ensures path.None? && query.None? && fragment.Some? ==> r == Some("null#" + fragment.value)
    ensures path.None? && query.None? && fragment.None? ==> r.None?
  {
    AppendPartsCases(path, query, fragment);
    Append(Append(path, '?', query), '#', fragment)
  }

  /** One `target += sep + part`, done only for a present part. */
  function Append(target: Option<string>, sep: char, part: Option<string>): Option<string> {
    if part.Some? then Some(JavaString(target) + [sep] + part.value) else target
  }

  lemma AppendPartsCases(path: Option<string>, query: Option<string>, fragment: Option<string>)
    ensures var r := Append(Append(path, '?', query), '#', fragment);
      && (path.Some? ==> r == Some(path.value + Joined('?', query) + Joined('#', fragment)))
      && (path.None? && query.Some? ==> r == Some("null?" + query.value + Joined('#', fragment)))
      && (path.None? && query.None? && fragment.Some? ==> r == Some("null#" + fragment.value))
      && (path.None? && query.None? && fragment.None? ==> r.None?)
  {
    if path.Some? {
      JoinedPieces(path.value, query, fragment);
    } else if query.Some? {
      JoinedPieces("null", query, fragment);
      assert "null" + Joined('?', query) == "null?" + query.value;
    } else if fragment.Some? {
      assert "null" + ['#'] + fragment.value == "null#" + fragment.value;
    }
  }

  /** Appending the present parts one after the other, as `+=` does. */
  lemma JoinedPieces(front: string, q: Option<string>, f: Option<string>)
    ensures Append(Append(Some(front), '?', q), '#', f) == Some(front + Joined('?', q) + Joined('#', f))
  {
    var withQuery := front + Joined('?', q);
    if q.Some? {
      assert JavaString(Some(front)) == front;
      assert Append(Some(front), '?', q) == Some(front + ['?'] + q.value);
      assert front + ['?'] + q.value == withQuery;
    } else {
      assert front + "" == front;
    }
    assert Append(Some(front), '?', q) == Some(withQuery);
    if f.Some? {
      assert withQuery + ['#'] + f.value == withQuery + Joined('#', f);
    } else {
      assert withQuery + "" == withQuery;
    }
  }

  /** The request a hop issues for its resolved URI. */
  function RequestFor(u: Uri): (r: Request)
    ensures r.ssl <==> u.scheme.Some? && LowerAll(u.scheme.value) == "https"
    ensures u.port <= 0 && r.ssl ==> r.port == 443
    ensures !r.ssl && u.port <= 0 && u.scheme.Some? && LowerAll(u.scheme.value) == "http" ==> r.port == 80
    ensures u.port > 0 ==> r.port == u.port
    ensures !r.ssl && !(u.scheme.Some? && LowerAll(u.scheme.value) == "http") ==> r.port == u.port
    ensures r.host == u.host && r.target == RequestTarget(u)
  {
    Request(IsSsl(u), Port(u), u.host, RequestTarget(u))
  }

  /** Index of the first occurrence of `c` in `s`, if any. */
  function IndexOf(s: string, c: char): (r: Option<nat>)
    ensures r.None? <==> c !in s
    ensures r.Some? ==> r.value < |s| && s[r.value] == c
    ensures r.Some? ==> forall k :: 0 <= k < r.value ==> s[k] != c
  {
    if |s| == 0 then None
    else if s[0] == c then Some(0)
    else
      var rest := IndexOf(s[1..], c);
      if rest.None? then None else Some(rest.value + 1)
  }

  /** Splits at the first `c`: the text before it, and the text after it if
      there is one. */
  function SplitAt(t: string, c: char): (string, Option<string>) {
    match IndexOf(t, c)
    case None => (t, None)
    case Some(i) => (t[..i], Some(t[i + 1..]))
  }

  /** Reads a request target back into path, query and fragment, splitting at
      the first `#` and then at the first `?` before it. */
  function SplitTarget(t: string): (string, Option<string>, Option<string>) {
    var (beforeHash, fragment) := SplitAt(t, '#');
    var (path, query) := SplitAt(beforeHash, '?');
    (path, query, fragment)
  }

  /** `sep` followed by the part, or nothing when the part is absent. */
  function Joined(sep: char, part: Option<string>): string {
    if part.Some? then [sep] + part.value else ""
  }

  /** Splitting at `c` undoes joining with `c` when the front holds no `c`. */
  lemma SplitAtJoined(front: string, c: char, part: Option<string>)
    requires c !in front
    ensures SplitAt(front + Joined(c, part), c) == (front, part)
  {
    if part.Some? {
      var t := front + [c] + part.value;
      assert front + Joined(c, part) == t;
      FirstIndexAfter(front, c, part.value);
      assert t[..|front|] == front;
      assert t[|front| + 1..] == part.value;
    } else {
      assert front + Joined(c, part) == front;
    }
  }

  /** The first `c` of `front + [c] + rest` sits right after `front` when
      `front` holds none. */
  lemma FirstIndexAfter(front: string, c: char, rest: string)
    requires c !in front
    ensures IndexOf(front + [c] + rest, c) == Some(|front|)
  {
    var t := front + [c] + rest;
    assert forall k :: 0 <= k < |front| ==> t[k] == front[k];
    assert t[|front|] == c;
  }

  /** Nothing is lost or re-encoded: for a path without `?` or `#` and a query
      without `#` (the shapes URI syntax allows), splitting the request target
      returns the raw path and exactly the kept query and fragment, untrimmed. */
  lemma RequestTargetRoundTrip(u: Uri)
    requires u.rawPath.Some? && '?' !in u.rawPath.value && '#' !in u.rawPath.value
    requires u.rawQuery.Some? ==> '#' !in u.rawQuery.value
    ensures RequestTarget(u).Some?
    ensures SplitTarget(RequestTarget(u).value) == (u.rawPath.value, Kept(u.rawQuery), Kept(u.rawFragment))
  {
    var p := u.rawPath.value;
    var q := Kept(u.rawQuery);
    var f := Kept(u.rawFragment);
    var before := p + Joined('?', q);
    assert '#' !in before;
    SplitAtJoined(before, '#', f);
    SplitAtJoined(p, '?', q);
  }

  /** The request target keeps the raw path as its prefix, and is null only
      when the path is null and neither a query nor a fragment is appended. */
  lemma RequestTargetShape(u: Uri)
    ensures RequestTarget(u).None? <==> u.rawPath.None? && Kept(u.rawQuery).None? && Kept(u.rawFragment).None?
    ensures u.rawPath.Some? ==> RequestTarget(u).Some? && u.rawPath.value <= RequestTarget(u).value
    ensures Kept(u.rawQuery).None? && Kept(u.rawFragment).None? ==> RequestTarget(u) == u.rawPath
  {
  }
}

=== FILE: uri.dfy ===
/** The part of `java.net.URI` the redirect handler reads, as a plain record,
    and the library operations it calls, as function values the model does
    not interpret. */
module Uris {
  import opened Optional
  import JavaText

  /** What `getScheme`, `getHost`, `getPort`, `getRawPath`, `getRawQuery` and
      `getRawFragment` return; `None` stands for Java's `null`, and a port of
      -1 for "no port given". */
  datatype Uri = Uri(
    scheme: Option<string>,
    host: Option<string>,
    port: int,
    rawPath: Option<string>,
    rawQuery: Option<string>,
    rawFragment: Option<string>)

  /** The foreign URI library: `new URI(s)` (which throws, here `None`, on a
      string it cannot parse), `base.resolve(reference)` where it builds a new
      URI, and `toString()` of such a built URI (one made by `new URI(s)`
      gives back `s` itself and needs no library call). */
  datatype UriLibrary = UriLibrary(
    parse: string -> Option<Uri>,
    resolve: (Uri, Uri) -> Uri,
    format: Uri -> string)

  /** A host that is present and not blank: such a URI is used as it stands
      rather than resolved against the previous hop. */
  predicate HasHost(u: Uri) {
    u.host.Some? && !JavaText.IsBlank(u.host.value)
  }

  /** A URI with a scheme. */
  predicate IsAbsolute(u: Uri) {
    u.scheme.Some?
  }

  /** An opaque URI such as `mailto:a@b`: it has a scheme and no path at all,
      since every hierarchical URI has a path, if only an empty one. */
  predicate IsOpaque(u: Uri) {
    u.scheme.Some? && u.rawPath.None?
  }

  /** `base.resolve(reference)` returns the `reference` object itself when
      that is absolute or the base is opaque; only otherwise is a new URI
      built. */
  predicate ResolvesToItself(base: Uri, reference: Uri) {
    IsAbsolute(reference) || IsOpaque(base)
  }
}
